=== FILE: README.md ===
# Movie lookup and recommendation API — Dafny model

This project models the selection and aggregation logic of a small movie API
(`main.py`). Each endpoint loads one table of movie metadata, selects rows by a
key the caller supplies, and answers from them:

- `peliculas_idioma`, `peliculas_duracion`, `peliculas_pais` and
  `productoras_exitosas` answer from the first row whose key equals the argument,
  or with a not-found reply (module `Lookups`).
- `franquicia` counts the titles of a collection, sums their revenue and divides.
  The average is 0 for an empty franchise (module `Franchises`).
- `get_director` lists every film of a director in table order. It sums the
  `return` column over the films whose revenue and budget are both numeric. It
  answers with distinct messages when the director has no film, or has no film
  with both figures (module `Directors`).
- `recomendacion` resolves a title to its row label through a title index and
  clamps the label to the table. It ranks that row of the similarity matrix by
  descending score with a stable sort. It drops the first-ranked entry, keeps the
  next ten, and returns the titles of the first five of those (modules `Ranking`
  and `Recommendation`).

Tables are sequences of records. Nullable or possibly non-numeric cells are
`Option` values. Amounts are `real`. Every reply is a datatype with one
constructor per message the endpoint can print, carrying the values the message
interpolates. Shared pieces live in `Tables`: first-match `Find`, exact-match
`Select`, mask `Filter`, and Python slicing `PySlice`.

The ranking is specified as an order, not as an algorithm. `Before` puts a higher
score first and, for equal scores, the lower row position first. Python's
`sorted(..., reverse=True)` is stable, so its result respects `Before`. Because
`Before` is strict on the entries of a row, exactly one arrangement respects it
(`Ranking.RankOrderedUnique`). The model computes that arrangement by insertion
sort.

Behaviour of the code in its edge cases, as the model keeps it:

- Duplicate titles. `drop_duplicates()` at main.py:152 removes repeated row
  *labels*, not repeated titles. A title held by several surviving rows makes
  `indices[titulo]` a Series, and `min` at main.py:154 raises on it. The model
  answers `AmbiguousTitle`.
- A missing title raises `KeyError` at main.py:153. The model answers
  `TitleNotFound`.
- Self-exclusion. The `[1:11]` slice at main.py:157 drops ranked slot 0 whatever
  row it holds. The model does the same, and proves that slot 0 is the query row
  when the query scores strictly highest against itself.
- Franchise count. The count at main.py:44 is `title.count()`, the number of
  matching rows whose title is not null. It equals the number of matching rows
  exactly when none of their titles is null
  (`Franchises.FranchiseCountsMatchingRows`).

## Model

| member | source | states |
|---|---|---|
| Tables.Find | main.py:15-20 | the result is None exactly when no row has the key; otherwise it is the first row with the key |
| Tables.Select | main.py:43 | the rows selected by `df[df[col] == k]` all carry the key, and there are no more of them than rows in the table |
| Tables.Filter | main.py:105-108 | the rows kept by a boolean mask all satisfy it, and there are no more of them than rows in the table |
| Tables.SelectAppend | main.py:43 | selecting from a concatenation of two tables gives the two selections in order |
| Tables.SelectEmpty | main.py:100 | the selection is empty exactly when no row carries the key |
| Tables.SelectMembers | main.py:98 | a row is selected exactly when it is in the table and carries the key |
| Tables.FilterMembers | main.py:105-108 | a row is kept by the mask exactly when it is in the table and satisfies the predicate |
| Tables.PySlice | main.py:157 | `s[lo:hi]` has length min(hi,len)-lo, or 0 when the range is inverted or starts past the end; element k is s[lo+k] |
| Lookups.FilmsInLanguage | main.py:15-25 | not found exactly when no row has the language; otherwise the singular sentence exactly when the first matching row's count is 1, and the plural sentence with that count in every other case |
| Lookups.Truncate | main.py:36 | `int()` truncates toward zero: the result is within 1 of the input and never farther from zero |
| Lookups.FilmRuntime | main.py:31-38 | not found exactly when no row has the title; otherwise the truncated runtime and the year of the first matching row |
| Lookups.CountryProductions | main.py:62-71 | not found exactly when no row has the country key; otherwise the production count and country name of the first matching row |
| Lookups.CompanyTotals | main.py:79-91 | no reply exactly when no row has the company; otherwise the revenue and movie count of the first matching row |
| Franchises.TitleCount | main.py:44 | the non-null count of the title column never exceeds the number of rows |
| Franchises.RevenueSum | main.py:45 | the null-skipping sum of the revenue column is 0 when every revenue is null |
| Franchises.Average | main.py:47-50 | the average of a franchise with no counted movie is 0 |
| Franchises.Franchise | main.py:43-54 | the count never exceeds the number of matching rows; the average is 0 when the count is 0; a name no row carries gives count 0 and total 0 |
| Franchises.FranchiseAverage | main.py:47-48 | when the count is positive, average times count equals the total |
| Franchises.TitleCountAllPresent | main.py:44 | `count()` on the title column equals the number of rows exactly when no title is null |
| Franchises.TitleCountAppend | main.py:44 | the non-null count of a concatenation is the sum of the parts' counts |
| Franchises.RevenueSumAppend | main.py:45 | the null-skipping sum of a concatenation is the sum of the parts' sums |
| Franchises.FranchiseSplit | main.py:43-45 | the count and total over a table split in two are the sums of the parts' counts and totals |
| Franchises.FranchiseCountsMatchingRows | main.py:43-44 | the count is the number of rows of the collection exactly when none of their titles is null |
| Franchises.AggregateFranchise | main.py:43-45 | a single pass over the table gives the same count and total as the report |
| Directors.TextCell | main.py:131-134 | a text field prints as "Sin información" exactly when it reads "nan", and as itself otherwise |
| Directors.AmountCell | main.py:125-127 | a numeric field prints as "Sin información" exactly when it is null, and as its amount otherwise |
| Directors.Line | main.py:121-134 | a present title, release date, return, budget or revenue prints the row's own value; a field reads "Sin información" exactly when its cell is null or reads "nan"; budget and revenue are both printed as amounts exactly when the film has both figures |
| Directors.Lines | main.py:120-129 | one listing line per row, line k built from row k |
| Directors.ReturnSum | main.py:116 | the null-skipping sum of the return column is 0 when every return is null |
| Directors.ReturnSumAppend | main.py:116 | the null-skipping sum of the return column over a concatenation is the sum of the parts' sums |
| Directors.Listing | main.py:98-129 | the listing has one line per row of the director, and it is empty exactly when no row has the director |
| Directors.ListedTotal | main.py:116-134 | a listing none of whose lines prints both a budget and a revenue totals 0 |
| Directors.Director | main.py:98-129 | "no films" exactly when no row has the director; "no revenue and budget" exactly when some row has the director and none of them has both figures; otherwise a report whose listing has one line per film of the director, and whose total is the sum of the printed returns of exactly the listed films whose budget and revenue are both printed |
| Directors.ListedTotalOfLines | main.py:105-129 | the returns printed on the lines that show both budget and revenue add up to the return sum over the rows with both figures |
| Directors.ListingAppend | main.py:121-129 | the listing of a concatenation is the listing of each part in turn |
| Directors.ListingSingle | main.py:121-129 | a single row contributes its own line exactly when it is the director's |
| Directors.MissingFigureListedNotSummed | main.py:105-108 | a film with a null budget is listed with "Sin información" for the budget and is left out of the rows summed |
| Ranking.Enumerate | main.py:155 | `enumerate` pairs each score with its own position, in row order |
| Ranking.Insert | main.py:156 | inserting an entry adds exactly that entry to the multiset of entries |
| Ranking.SortDesc | main.py:156 | the sorted sequence is a permutation of its input |
| Ranking.InsertRankOrdered | main.py:156 | inserting an entry whose position precedes all others keeps the sequence in ranking order |
| Ranking.SortDescRankOrdered | main.py:156 | sorting entries with increasing positions yields descending scores with ties in ascending position |
| Ranking.Rank | main.py:155-156 | the ranking of a row is a permutation of the enumerated row in ranking order |
| Ranking.RankIsStablePermutation | main.py:155-156 | the ranking lists every position 0..N-1 exactly once with its own score; scores never increase; equal scores keep ascending row order |
| Ranking.RankOrderedUnique | main.py:156 | two sequences in ranking order with the same entries are equal |
| Ranking.RankIsTheRankingOrder | main.py:155-156 | any arrangement of the row's entries in ranking order is the ranking, so the result does not depend on the sort algorithm |
| Ranking.FlatRowKeepsRowOrder | main.py:155-156 | a row whose scores are all equal ranks in row order |
| Ranking.TopIsFirstMaximum | main.py:156-157 | the first-ranked entry has the row's highest score and the lowest position among the entries with that score |
| Ranking.StrictMaximumRanksFirst | main.py:156-157 | a position scoring strictly above every other ranks first |
| Recommendation.Shown | main.py:147 | a title is shown as itself, and a null title as the empty string |
| Recommendation.Positions | main.py:158 | the row positions of the ranked entries, one per entry, in ranked order |
| Recommendation.TitlesAt | main.py:160 | the titles at the given positions, one per position, in the same order |
| Recommendation.HitsFrom | main.py:152 | lists, ascending, exactly the rows from j on whose label is new and whose filled title is the key |
| Recommendation.ResolveTitle | main.py:152-154 | not found exactly when no indexed row has the title; ambiguous exactly when two do; otherwise the label of the one indexed row with the title |
| Recommendation.Clamp | main.py:154 | the clamped position is always a row of the table, and it is the label itself whenever the label is already a row |
| Recommendation.Window | main.py:157-160 | the titles of ranked entries 1 .. min(5, N-1), in ranked order |
| Recommendation.Recommend | main.py:147-162 | TitleNotFound exactly when no indexed row has the title; any failure is the title lookup's failure; a success holds exactly min(5, N-1) titles |
| Recommendation.RecommendPicks | main.py:155-160 | the returned titles are those at ranked positions 1 .. min(5, N-1); ranked entry 0 is never among them; the returned rows are pairwise distinct |
| Recommendation.RecommendExcludesQuery | main.py:155-157 | when the query row scores strictly highest against itself, the query row is never returned |
| Recommendation.RecommendFlatRow | main.py:147-160 | for a flat similarity row, such as one scoring 0 everywhere, the titles of rows 1 .. min(5, N-1) are returned in row order |

## Left out

- TF-IDF vectorisation and `linear_kernel` (main.py:146, 149-150): the similarity matrix is an input, an N x N matrix of `real` scores. When no title holds a word outside the stop words, `fit_transform` at main.py:149 raises `ValueError` (empty vocabulary); the model has no vocabulary and returns a recommendation for any matrix. Properties that depend on the scores' values, such as symmetry, self-similarity 1.0, or a title sharing more words with the query ranking higher, are not modelled.
- Parquet loading and FastAPI routing: the tables are parameters and each endpoint is a function.
- Message text and number formatting (`"{:,.2f}"`, f-strings, the final `join` at main.py:137-138): replies are datatypes carrying the interpolated values.
- `pd.to_numeric(..., errors='coerce')`: a cell is `Some` when numeric and `None` otherwise. In the director listing a string return, budget or revenue, numeric or not, makes the `format` at main.py:125-127 raise, since `isnull` is false for it; the model reads such a cell as `None` or as its number, so it lists the film where the code raises.
- Floating point: sums and averages are exact `real` arithmetic. Scores are never NaN, and a NaN runtime (where `int()` raises) is not modelled.
- Index labels are non-negative integers. Negative labels, which numpy would read from the end of the row, are not modelled.
- Null or non-string titles and release dates in the director table (where `join` would raise) are not modelled: both are text.
- The `print` side effect of `productoras_exitosas` (main.py:84): the model returns no reply.

=== FILE: directors.dfy ===
/**
 The director endpoint: the films of one director, the sum of their returns
 over the films whose revenue and budget are both known, and one listing line
 per film in table order.
 */
module Directors {
  import opened Tables

  /** A row of the movie/director table. Return, budget and revenue are numeric
      or null. A string cell, on which the code's formatting raises, is not
      represented: the model reads it as null, or as its number. */
  datatype DirectorRow = DirectorRow(
    director: string,
    title: string,
    releaseDate: string,
    ret: Option<real>,
    budget: Option<real>,
    revenue: Option<real>)

  function DirectorOf(r: DirectorRow): string { r.director }

  /** Both revenue and budget are numeric, so the film enters the total. */
  predicate HasFigures(r: DirectorRow) {
    r.revenue.Some? && r.budget.Some?
  }

  /** One printed field of a listing line. `NoInfo` is "Sin información";
      an `Amount` is printed with two decimals. */
  datatype Cell = Text(text: string) | Amount(amount: real) | NoInfo

  datatype FilmLine = FilmLine(title: Cell, releaseDate: Cell, ret: Cell, budget: Cell, revenue: Cell)

  datatype DirectorReply =
    | NoFilms(name: string)        // "No se encontraron películas dirigidas por ..."
    | NoFigures(name: string)      // "No se encontraron películas con información de revenue y budget para ..."
    | Report(name: string, total: real, films: seq<FilmLine>)

  /** A text field; one that prints as "nan" is replaced by "Sin información". */
  function TextCell(s: string): (c: Cell)
    ensures c == NoInfo <==> s == "nan"
    ensures c != NoInfo ==> c == Text(s)
  {
    if s == "nan" then NoInfo else Text(s)
  }

  /** A numeric field; a null one is "Sin información". */
  function AmountCell(v: Option<real>): (c: Cell)
    ensures c == NoInfo <==> v.None?
    ensures v.Some? ==> c == Amount(v.value)
  {
    match v
    case Some(x) => Amount(x)
    case None => NoInfo
  }

  /** The printed line of a film: a field reads "Sin información" exactly when
      the cell is null or reads "nan", and budget and revenue are both printed
      exactly when the film enters the total. */
  function Line(r: DirectorRow): (l: FilmLine)
    ensures l.title == NoInfo <==> r.title == "nan"
    ensures l.releaseDate == NoInfo <==> r.releaseDate == "nan"
    ensures l.ret == NoInfo <==> r.ret.None?
    ensures l.budget == NoInfo <==> r.budget.None?
    ensures l.revenue == NoInfo <==> r.revenue.None?
    ensures l.budget.Amount? && l.revenue.Amount? <==> HasFigures(r)
    ensures r.title != "nan" ==> l.title == Text(r.title)
    ensures r.releaseDate != "nan" ==> l.releaseDate == Text(r.releaseDate)
    ensures r.ret.Some? ==> l.ret == Amount(r.ret.value)
    ensures r.budget.Some? ==> l.budget == Amount(r.budget.value)
    ensures r.revenue.Some? ==> l.revenue == Amount(r.revenue.value)
  {
    FilmLine(TextCell(r.title), TextCell(r.releaseDate), AmountCell(r.ret), AmountCell(r.budget), AmountCell(r.revenue))
  }

  function Lines(rows: seq<DirectorRow>): (ls: seq<FilmLine>)
    ensures |ls| == |rows|
    ensures forall k | 0 <= k < |rows| :: ls[k] == Line(rows[k])
  {
    if |rows| == 0 then [] else [Line(rows[0])] + Lines(rows[1..])
  }

  /** `Series.sum()` of the return column: null returns are skipped. */
  function ReturnSum(rows: seq<DirectorRow>): (t: real)
    ensures (forall j | 0 <= j < |rows| :: rows[j].ret.None?) ==> t == 0.0
  {
    if |rows| == 0 then 0.0 else rows[0].ret.GetOr(0.0) + ReturnSum(rows[1..])
  }

  lemma {:induction false} ReturnSumAppend(a: seq<DirectorRow>, b: seq<DirectorRow>)
    ensures ReturnSum(a + b) == ReturnSum(a) + ReturnSum(b)
  {
    if |a| == 0 {
      assert a + b == b;
    } else {
      assert (a + b)[1..] == a[1..] + b;
      ReturnSumAppend(a[1..], b);
    }
  }

  /** The listing of a table: one line per film of the director, in table order. */
  function Listing(rows: seq<DirectorRow>, name: string): (ls: seq<FilmLine>)
    ensures |ls| == |Select(rows, DirectorOf, name)|
    ensures |ls| == 0 <==> forall j | 0 <= j < |rows| :: rows[j].director != name
  {
    SelectEmpty(rows, DirectorOf, name);
    Lines(Select(rows, DirectorOf, name))
  }

  /** The total recomputed from the listing alone: the returns of the lines
      whose budget and revenue are both printed, a "Sin información" return
      adding nothing. */
  function ListedTotal(ls: seq<FilmLine>): (t: real)
    ensures (forall k | 0 <= k < |ls| :: !(ls[k].budget.Amount? && ls[k].revenue.Amount?)) ==> t == 0.0
  {
    if |ls| == 0 then 0.0
    else
      var l := ls[0];
      var here := if l.budget.Amount? && l.revenue.Amount? && l.ret.Amount? then l.ret.amount else 0.0;
      here + ListedTotal(ls[1..])
  }

  lemma {:induction false} ListedTotalOfLines(rows: seq<DirectorRow>)
    ensures ListedTotal(Lines(rows)) == ReturnSum(Filter(rows, HasFigures))
  {
    if |rows| > 0 {
      ListedTotalOfLines(rows[1..]);
      assert Lines(rows)[1..] == Lines(rows[1..]);
    }
  }

  /** The reply of the endpoint: a message when the director has no film, a
      different one when no film has both revenue and budget, and otherwise the
      full listing with the total return over the films with both figures. That
      total can be read back off the listing: it adds the printed returns of
      exactly the lines whose budget and revenue are both printed. */
  function Director(rows: seq<DirectorRow>, name: string): (r: DirectorReply)
    ensures r.name == name
    ensures r.NoFilms? <==> forall j | 0 <= j < |rows| :: rows[j].director != name
    ensures r.NoFigures? <==>
      && (exists j | 0 <= j < |rows| :: rows[j].director == name)
      && (forall j | 0 <= j < |rows| && rows[j].director == name :: !HasFigures(rows[j]))
    ensures r.Report? ==> r.films == Listing(rows, name)
    ensures r.Report? ==> |r.films| == |Select(rows, DirectorOf, name)| > 0
    ensures r.Report? ==> r.total == ListedTotal(r.films)
  {
    var films := Select(rows, DirectorOf, name);
    SelectEmpty(rows, DirectorOf, name);
    SelectMembers(rows, DirectorOf, name);
    if |films| == 0 then NoFilms(name)
    else
      var valid := Filter(films, HasFigures);
      FilterMembers(films, HasFigures);
      if |valid| == 0 then
        assert forall j | 0 <= j < |rows| && rows[j].director == name :: !HasFigures(rows[j]) by {
          forall j | 0 <= j < |rows| && rows[j].director == name
            ensures !HasFigures(rows[j])
          {
            assert rows[j] in films;
          }
        }
        NoFigures(name)
      else
        assert exists j | 0 <= j < |rows| && rows[j].director == name :: HasFigures(rows[j]) by {
          var x := valid[0];
          assert x in valid;
          var j :| 0 <= j < |rows| && rows[j] == x;
        }
        ListedTotalOfLines(films);
        Report(name, ReturnSum(valid), Lines(films))
  }

  /** The listing is built row by row: listing a concatenation lists each part
      in turn, and one row contributes its own line exactly when it is the
      director's. */
  lemma {:induction false} ListingAppend(a: seq<DirectorRow>, b: seq<DirectorRow>, name: string)
    ensures Listing(a + b, name) == Listing(a, name) + Listing(b, name)
  {
    SelectAppend(a, b, DirectorOf, name);
    LinesAppend(Select(a, DirectorOf, name), Select(b, DirectorOf, name));
  }

  lemma ListingSingle(row: DirectorRow, name: string)
    ensures Listing([row], name) == if row.director == name then [Line(row)] else []
  {
  }

  lemma {:induction false} LinesAppend(a: seq<DirectorRow>, b: seq<DirectorRow>)
    ensures Lines(a + b) == Lines(a) + Lines(b)
  {
    assert |Lines(a + b)| == |Lines(a) + Lines(b)|;
    forall k | 0 <= k < |a + b|
      ensures Lines(a + b)[k] == (Lines(a) + Lines(b))[k]
    {
      if k < |a| {
        assert (a + b)[k] == a[k];
      } else {
        assert (a + b)[k] == b[k - |a|];
      }
    }
  }

  /** A film whose budget (or revenue) is null is still listed, with
      "Sin información" in that field, and is left out of the total. */
  lemma MissingFigureListedNotSummed(rows: seq<DirectorRow>, name: string, k: nat)
    requires Director(rows, name).Report?
    requires k < |Select(rows, DirectorOf, name)|
    requires Select(rows, DirectorOf, name)[k].budget.None?
    ensures Director(rows, name).films[k].budget == NoInfo
    ensures Select(rows, DirectorOf, name)[k] !in Filter(Select(rows, DirectorOf, name), HasFigures)
  {
    FilterMembers(Select(rows, DirectorOf, name), HasFigures);
  }
}

=== FILE: franchises.dfy ===
/**
 The franchise endpoint: over the rows of one collection it counts the movies,
 sums their revenue and divides, answering 0 as the average of an empty
 franchise.
 */
module Franchises {
  import opened Tables

  /** A row of the collections table. Title and revenue may be null. */
  datatype CollectionRow = CollectionRow(collection: string, title: Option<string>, revenue: Option<real>)

  function CollectionOf(r: CollectionRow): string { r.collection }

  datatype FranchiseReport = FranchiseReport(name: string, movies: nat, total: real, average: real)

  /** `Series.count()` on the title column: the number of non-null titles. */
  function TitleCount(rows: seq<CollectionRow>): (n: nat)
    ensures n <= |rows|
  {
    if |rows| == 0 then 0
    else (if rows[0].title.Some? then 1 else 0) + TitleCount(rows[1..])
  }

  /** `Series.sum()` on the revenue column: null revenues are skipped. */
  function RevenueSum(rows: seq<CollectionRow>): (t: real)
    ensures (forall j | 0 <= j < |rows| :: rows[j].revenue.None?) ==> t == 0.0
  {
    if |rows| == 0 then 0.0
    else rows[0].revenue.GetOr(0.0) + RevenueSum(rows[1..])
  }

  /** `total / count`, guarded to 0 for an empty franchise. */
  function Average(total: real, count: nat): (avg: real)
    ensures count == 0 ==> avg == 0.0
  {
    if count > 0 then total / count as real else 0.0
  }

  /** Count, total and guarded average of the movies of a franchise. */
  function Franchise(rows: seq<CollectionRow>, name: string): (r: FranchiseReport)
    ensures r.name == name
    ensures r.movies <= |Select(rows, CollectionOf, name)|
    ensures r.movies == 0 ==> r.average == 0.0
    ensures (forall j | 0 <= j < |rows| :: rows[j].collection != name) ==> r.movies == 0 && r.total == 0.0
  {
    var matching := Select(rows, CollectionOf, name);
    SelectEmpty(rows, CollectionOf, name);
    var count := TitleCount(matching);
    var total := RevenueSum(matching);
    FranchiseReport(name, count, total, Average(total, count))
  }

  /** A non-empty franchise averages its total over its movies: the average
      times the count gives back the total. */
  lemma FranchiseAverage(rows: seq<CollectionRow>, name: string)
    ensures var r := Franchise(rows, name);
      r.movies > 0 ==> r.average * r.movies as real == r.total
  {
  }

  /** The non-null count reaches the number of rows exactly when no title is null. */
  lemma {:induction false} TitleCountAllPresent(rows: seq<CollectionRow>)
    ensures TitleCount(rows) == |rows| <==> forall j | 0 <= j < |rows| :: rows[j].title.Some?
  {
    if |rows| > 0 {
      TitleCountAllPresent(rows[1..]);
      assert forall j | 1 <= j < |rows| :: rows[j] == rows[1..][j - 1];
    }
  }

  lemma {:induction false} TitleCountAppend(a: seq<CollectionRow>, b: seq<CollectionRow>)
    ensures TitleCount(a + b) == TitleCount(a) + TitleCount(b)
  {
    if |a| == 0 {
      assert a + b == b;
    } else {
      assert (a + b)[1..] == a[1..] + b;
      TitleCountAppend(a[1..], b);
    }
  }

  lemma {:induction false} RevenueSumAppend(a: seq<CollectionRow>, b: seq<CollectionRow>)
    ensures RevenueSum(a + b) == RevenueSum(a) + RevenueSum(b)
  {
    if |a| == 0 {
      assert a + b == b;
    } else {
      assert (a + b)[1..] == a[1..] + b;
      RevenueSumAppend(a[1..], b);
    }
  }

  /** Count and total are additive: the report over a table split in two parts
      has the sums of the parts' counts and totals. */
  lemma FranchiseSplit(a: seq<CollectionRow>, b: seq<CollectionRow>, name: string)
    ensures Franchise(a + b, name).movies == Franchise(a, name).movies + Franchise(b, name).movies
    ensures Franchise(a + b, name).total == Franchise(a, name).total + Franchise(b, name).total
  {
    SelectAppend(a, b, CollectionOf, name);
    TitleCountAppend(Select(a, CollectionOf, name), Select(b, CollectionOf, name));
    RevenueSumAppend(Select(a, CollectionOf, name), Select(b, CollectionOf, name));
  }

  /** The franchise counts every one of its rows exactly when none of their
      titles is null. */
  lemma FranchiseCountsMatchingRows(rows: seq<CollectionRow>, name: string)
    ensures var matching := Select(rows, CollectionOf, name);
      Franchise(rows, name).movies == |matching| <==> forall k | 0 <= k < |matching| :: matching[k].title.Some?
  {
    TitleCountAllPresent(Select(rows, CollectionOf, name));
  }

  /** Extending the table by one row adds that row's contribution, if any. */
  lemma SelectSnoc(prefix: seq<CollectionRow>, row: CollectionRow, name: string)
    ensures TitleCount(Select(prefix + [row], CollectionOf, name))
         == TitleCount(Select(prefix, CollectionOf, name)) + (if row.collection == name && row.title.Some? then 1 else 0)
    ensures RevenueSum(Select(prefix + [row], CollectionOf, name))
         == RevenueSum(Select(prefix, CollectionOf, name)) + (if row.collection == name then row.revenue.GetOr(0.0) else 0.0)
  {
    var head := Select(prefix, CollectionOf, name);
    var last := Select([row], CollectionOf, name);
    SelectAppend(prefix, [row], CollectionOf, name);
    assert last == (if row.collection == name then [row] else []);
    TitleCountAppend(head, last);
    RevenueSumAppend(head, last);
  }

  /** Extending the scanned prefix by row `i` adds that row's contribution. */
  lemma ScanStep(rows: seq<CollectionRow>, i: nat, name: string)
    requires i < |rows|
    ensures TitleCount(Select(rows[..i + 1], CollectionOf, name))
         == TitleCount(Select(rows[..i], CollectionOf, name)) + (if rows[i].collection == name && rows[i].title.Some? then 1 else 0)
    ensures RevenueSum(Select(rows[..i + 1], CollectionOf, name))
         == RevenueSum(Select(rows[..i], CollectionOf, name)) + (if rows[i].collection == name then rows[i].revenue.GetOr(0.0) else 0.0)
  {
    assert rows[..i + 1] == rows[..i] + [rows[i]];
    SelectSnoc(rows[..i], rows[i], name);
  }

  /** One pass over the table, accumulating the matching rows' title count and
      revenue as pandas does column by column. */
  method AggregateFranchise(rows: seq<CollectionRow>, name: string) returns (movies: nat, total: real)
    ensures movies == Franchise(rows, name).movies
    ensures total == Franchise(rows, name).total
  {
    movies, total := 0, 0.0;
    var i := 0;
    while i < |rows|
      invariant 0 <= i <= |rows|
      invariant movies == TitleCount(Select(rows[..i], CollectionOf, name))
      invariant total == RevenueSum(Select(rows[..i], CollectionOf, name))
    {
      ScanStep(rows, i, name);
      var row := rows[i];
      movies := movies + if row.collection == name && row.title.Some? then 1 else 0;
      total := total + if row.collection == name then row.revenue.GetOr(0.0) else 0.0;
      i := i + 1;
    }
    assert rows[..|rows|] == rows;
  }
}

=== FILE: lookups.dfy ===
/**
 The single-row lookup endpoints: each one selects the rows whose key column
 equals the caller's argument and answers from the first of them, or with a
 not-found reply when there is none.
 */
module Lookups {
  import opened Tables

  // ---------------------------------------------------------------------------
  // peliculas_idioma: table of (language, number of movies)
  // ---------------------------------------------------------------------------

  datatype LanguageRow = LanguageRow(language: string, movies: int)

  function LanguageOf(r: LanguageRow): string { r.language }

  /** The three sentences the endpoint can answer with. */
  datatype LanguageReply =
    | LanguageNotFound
    | OneFilm(language: string)                // "Se produjo 1 película en el idioma ..."
    | ManyFilms(count: int, language: string)  // "Se produjeron <count> películas en el idioma ..."

  /** Number of movies in a language, with singular wording exactly when the
      first matching row says 1. Every other count, 0 included, is plural. */
  function FilmsInLanguage(rows: seq<LanguageRow>, language: string): (r: LanguageReply)
    ensures r.LanguageNotFound? <==> forall j | 0 <= j < |rows| :: rows[j].language != language
    ensures forall i | IsFirst(rows, LanguageOf, language, i) ::
      && (r.OneFilm? <==> rows[i].movies == 1)
      && (r.OneFilm? ==> r.language == language)
      && (r.ManyFilms? ==> r.count == rows[i].movies && r.language == language)
  {
    match Find(rows, LanguageOf, language)
    case None => LanguageNotFound
    case Some(i) =>
      var count := rows[i].movies;
      if count == 1 then OneFilm(language) else ManyFilms(count, language)
  }

  // ---------------------------------------------------------------------------
  // peliculas_duracion: table of (title, runtime in minutes, year)
  // ---------------------------------------------------------------------------

  datatype RuntimeRow = RuntimeRow(title: string, runtime: real, year: int)

  function TitleOf(r: RuntimeRow): string { r.title }

  datatype RuntimeReply =
    | RuntimeNotFound(title: string)
    | Runtime(title: string, minutes: int, year: int)

  /** Python's `int(x)` on a float: truncation toward zero. */
  function Truncate(x: real): (n: int)
    ensures 0.0 <= x ==> 0 <= n && n as real <= x < n as real + 1.0
    ensures x < 0.0 ==> n <= 0 && n as real - 1.0 < x <= n as real
  {
    if 0.0 <= x then x.Floor else -((-x).Floor)
  }

  /** Runtime and year of the first row with the given title; the runtime is
      shown truncated to whole minutes. */
  function FilmRuntime(rows: seq<RuntimeRow>, title: string): (r: RuntimeReply)
    ensures r.title == title
    ensures r.RuntimeNotFound? <==> forall j | 0 <= j < |rows| :: rows[j].title != title
    ensures forall i | IsFirst(rows, TitleOf, title, i) ::
      r.Runtime? && r.minutes == Truncate(rows[i].runtime) && r.year == rows[i].year
  {
    match Find(rows, TitleOf, title)
    case None => RuntimeNotFound(title)
    case Some(i) => Runtime(title, Truncate(rows[i].runtime), rows[i].year)
  }

  // ---------------------------------------------------------------------------
  // peliculas_pais: table of (country key, productions, country name)
  // ---------------------------------------------------------------------------

  datatype CountryRow = CountryRow(key: string, productions: int, name: string)

  function CountryKeyOf(r: CountryRow): string { r.key }

  datatype CountryReply =
    | CountryNotFound
    | Productions(key: string, count: int, name: string)

  /** Production count and display name of the first row with the given country key. */
  function CountryProductions(rows: seq<CountryRow>, key: string): (r: CountryReply)
    ensures r.CountryNotFound? <==> forall j | 0 <= j < |rows| :: rows[j].key != key
    ensures forall i | IsFirst(rows, CountryKeyOf, key, i) ::
      r == Productions(key, rows[i].productions, rows[i].name)
  {
    match Find(rows, CountryKeyOf, key)
    case None => CountryNotFound
    case Some(i) => Productions(rows[i].key, rows[i].productions, rows[i].name)
  }

  // ---------------------------------------------------------------------------
  // productoras_exitosas: table of (company, total revenue, total movies)
  // ---------------------------------------------------------------------------

  datatype CompanyRow = CompanyRow(company: string, totalRevenue: real, totalMovies: int)

  function CompanyOf(r: CompanyRow): string { r.company }

  datatype CompanyReport = CompanyReport(company: string, revenue: real, movies: int)

  /** Revenue and movie count of the first row for the company; no reply
      (`None`) when the company is absent. */
  function CompanyTotals(rows: seq<CompanyRow>, company: string): (r: Option<CompanyReport>)
    ensures r.None? <==> forall j | 0 <= j < |rows| :: rows[j].company != company
    ensures forall i | IsFirst(rows, CompanyOf, company, i) ::
      r == Some(CompanyReport(company, rows[i].totalRevenue, rows[i].totalMovies))
  {
    match Find(rows, CompanyOf, company)
    case None => None
    case Some(i) => Some(CompanyReport(company, rows[i].totalRevenue, rows[i].totalMovies))
  }
}

=== FILE: ranking.dfy ===
/**
 Ranking of one similarity row: its (position, score) pairs sorted by score,
 highest first.
 Python's sort is stable also when reversed, so entries are ordered by
 descending score and, among equal scores, by ascending row position. That
 order is strict on the entries of a row, so the ranking is the one and only
 arrangement of the row that respects it.
 */
module Ranking {

  /** A row position paired with its similarity score. */
  datatype Scored = Scored(pos: nat, score: real)

  /** Each score of the row paired with its position. */
  function Enumerate(row: seq<real>): (r: seq<Scored>)
    ensures |r| == |row|
    ensures forall k | 0 <= k < |r| :: r[k] == Scored(k, row[k])
  {
    seq(|row|, k requires 0 <= k < |row| => Scored(k, row[k]))
  }

  /** `a` is ranked before `b`: a higher score, or the same score and an
      earlier row position. */
  predicate Before(a: Scored, b: Scored) {
    a.score > b.score || (a.score == b.score && a.pos < b.pos)
  }

  /** Every entry is ranked before every later one. */
  predicate RankOrdered(s: seq<Scored>) {
    forall i, j | 0 <= i < j < |s| :: Before(s[i], s[j])
  }

  /** Row positions strictly increase along `s`, as in `Enumerate`. */
  predicate PosIncreasing(s: seq<Scored>) {
    forall i, j | 0 <= i < j < |s| :: s[i].pos < s[j].pos
  }

  /** Inserts `x` in front of the first entry whose score is not above its own. */
  function Insert(x: Scored, s: seq<Scored>): (r: seq<Scored>)
    ensures |r| == |s| + 1
    ensures multiset(r) == multiset(s) + multiset{x}
  {
    if |s| == 0 then [x]
    else if x.score >= s[0].score then [x] + s
    else
      assert s == [s[0]] + s[1..];
      [s[0]] + Insert(x, s[1..])
  }

  /** Insertion sort, descending by score. An earlier entry is inserted into the
      sorted rest in front of the entries with its score, which keeps it stable. */
  function SortDesc(s: seq<Scored>): (r: seq<Scored>)
    ensures |r| == |s|
    ensures multiset(r) == multiset(s)
  {
    if |s| == 0 then []
    else
      assert s == [s[0]] + s[1..];
      Insert(s[0], SortDesc(s[1..]))
  }

  /** Inserting an entry whose position precedes all others keeps the order. */
  lemma {:induction false} InsertRankOrdered(x: Scored, s: seq<Scored>)
    requires RankOrdered(s)
    requires forall k | 0 <= k < |s| :: x.pos < s[k].pos
    ensures RankOrdered(Insert(x, s))
  {
    if |s| == 0 {
    } else if x.score >= s[0].score {
      var r := [x] + s;
      forall i, j | 0 <= i < j < |r|
        ensures Before(r[i], r[j])
      {
        if i == 0 {
          assert r[j] == s[j - 1];
          if j > 1 {
            assert Before(s[0], s[j - 1]);
          }
        } else {
          assert r[i] == s[i - 1] && r[j] == s[j - 1];
        }
      }
    } else {
      var t := Insert(x, s[1..]);
      InsertRankOrdered(x, s[1..]);
      var r := [s[0]] + t;
      forall i, j | 0 <= i < j < |r|
        ensures Before(r[i], r[j])
      {
        if i == 0 {
          assert r[j] == t[j - 1];
          assert t[j - 1] in multiset(s[1..]) + multiset{x};
          if t[j - 1] != x {
            assert t[j - 1] in s[1..];
            var m :| 0 <= m < |s[1..]| && s[1..][m] == t[j - 1];
            assert s[1..][m] == s[m + 1];
          }
        } else {
          assert r[i] == t[i - 1] && r[j] == t[j - 1];
        }
      }
    }
  }

  /** Sorting entries whose positions increase yields the ranking order. */
  lemma {:induction false} SortDescRankOrdered(s: seq<Scored>)
    requires PosIncreasing(s)
    ensures RankOrdered(SortDesc(s))
  {
    if |s| > 0 {
      var rest := SortDesc(s[1..]);
      SortDescRankOrdered(s[1..]);
      forall k | 0 <= k < |rest|
        ensures s[0].pos < rest[k].pos
      {
        assert rest[k] in multiset(s[1..]);
        var m :| 0 <= m < |s[1..]| && s[1..][m] == rest[k];
        assert s[1..][m] == s[m + 1];
      }
      InsertRankOrdered(s[0], rest);
    }
  }

  /** The ranking of a similarity row. */
  function Rank(row: seq<real>): (r: seq<Scored>)
    ensures multiset(r) == multiset(Enumerate(row))
    ensures RankOrdered(r)
  {
    SortDescRankOrdered(Enumerate(row));
    SortDesc(Enumerate(row))
  }

  /** The ranking is a permutation of the row positions `0 .. |row|-1`, each
      paired with its own score; scores never increase along it and equal
      scores keep ascending row order. */
  lemma RankIsStablePermutation(row: seq<real>)
    ensures |Rank(row)| == |row|
    ensures forall k | 0 <= k < |Rank(row)| ::
      Rank(row)[k].pos < |row| && Rank(row)[k].score == row[Rank(row)[k].pos]
    ensures forall p | 0 <= p < |row| :: Scored(p, row[p]) in Rank(row)
    ensures forall i, j | 0 <= i < j < |Rank(row)| :: Rank(row)[i].pos != Rank(row)[j].pos
    ensures forall i, j | 0 <= i < j < |Rank(row)| :: Rank(row)[i].score >= Rank(row)[j].score
    ensures forall i, j | 0 <= i < j < |Rank(row)| && Rank(row)[i].score == Rank(row)[j].score ::
      Rank(row)[i].pos < Rank(row)[j].pos
  {
    var r := Rank(row);
    var e := Enumerate(row);
    assert |r| == |multiset(r)| == |multiset(e)| == |e|;
    forall k | 0 <= k < |r|
      ensures r[k].pos < |row| && r[k].score == row[r[k].pos]
    {
      assert r[k] in multiset(e);
    }
    forall p | 0 <= p < |row|
      ensures Scored(p, row[p]) in r
    {
      assert e[p] in multiset(r);
    }
  }

  /** A ranking-ordered sequence is determined by its elements. */
  lemma {:induction false} RankOrderedUnique(a: seq<Scored>, b: seq<Scored>)
    requires RankOrdered(a) && RankOrdered(b)
    requires multiset(a) == multiset(b)
    ensures a == b
  {
    if |a| == 0 {
      assert |b| == |multiset(b)| == 0;
    } else {
      assert |b| == |multiset(b)| == |multiset(a)| == |a|;
      assert a[0] in multiset(b);
      assert b[0] in multiset(a);
      // Each head is ranked before every other element, so the heads agree.
      assert a[0] == b[0];
      assert a == [a[0]] + a[1..] && b == [b[0]] + b[1..];
      assert multiset(a[1..]) == multiset(a) - multiset{a[0]};
      assert multiset(b[1..]) == multiset(b) - multiset{b[0]};
      RankOrderedUnique(a[1..], b[1..]);
    }
  }

  /** Any arrangement of the row's entries in ranking order is the ranking: the
      result does not depend on the sorting algorithm, only on the order. */
  lemma RankIsTheRankingOrder(row: seq<real>, s: seq<Scored>)
    requires multiset(s) == multiset(Enumerate(row))
    requires RankOrdered(s)
    ensures s == Rank(row)
  {
    RankOrderedUnique(s, Rank(row));
  }

  /** When every score of the row is equal, the ranking keeps row order. */
  lemma FlatRowKeepsRowOrder(row: seq<real>)
    requires forall i, j | 0 <= i < j < |row| :: row[i] == row[j]
    ensures Rank(row) == Enumerate(row)
  {
    RankIsTheRankingOrder(row, Enumerate(row));
  }

  /** The first-ranked entry carries the row's highest score, and among the
      positions with that score it is the lowest. */
  lemma TopIsFirstMaximum(row: seq<real>)
    requires |row| > 0
    ensures forall p | 0 <= p < |row| :: row[p] <= Rank(row)[0].score
    ensures forall p | 0 <= p < |row| && row[p] == Rank(row)[0].score :: Rank(row)[0].pos <= p
  {
    var r := Rank(row);
    RankIsStablePermutation(row);
    forall p | 0 <= p < |row|
      ensures row[p] <= r[0].score
      ensures row[p] == r[0].score ==> r[0].pos <= p
    {
      assert Scored(p, row[p]) in r;
      var k :| 0 <= k < |r| && r[k] == Scored(p, row[p]);
      if k > 0 {
        assert Before(r[0], r[k]);
      }
    }
  }

  /** A position whose score is strictly above every other score ranks first. */
  lemma StrictMaximumRanksFirst(row: seq<real>, q: nat)
    requires q < |row|
    requires forall p | 0 <= p < |row| && p != q :: row[p] < row[q]
    ensures Rank(row)[0].pos == q
  {
    TopIsFirstMaximum(row);
    RankIsStablePermutation(row);
  }
}

=== FILE: recommendation.dfy ===
/**
 The recommendation endpoint. The title column, with nulls read as empty
 titles, is indexed by title; the caller's title is resolved to its row label,
 the label is clamped to the table, that row of the similarity matrix is ranked,
 the first-ranked entry is dropped, the next ten are kept and the titles of the
 first five of those are returned.

 The similarity matrix (TF-IDF vectors compared with a linear kernel) is an
 input of the model: it is an N x N matrix of scores over the N rows.
 */
module Recommendation {
  import opened Tables
  import opened Ranking

  /** A row of the recommendation table: its index label and its nullable title. */
  datatype Movie = Movie(rowLabel: nat, title: Option<string>)

  datatype LookupError =
    | TitleNotFound   // the title is not a key of the index
    | AmbiguousTitle  // the title is the key of several index entries

  /** The title as it is vectorised and shown: a null title reads as "". */
  function Shown(m: Movie): (s: string)
    ensures m.title.Some? ==> s == m.title.value
    ensures m.title.None? ==> s == ""
  {
    m.title.GetOr("")
  }

  /** The index maps titles to labels and drops entries whose label repeats an
      earlier one, so row `j` is indexed when no earlier row has its label. */
  predicate Indexed(corpus: seq<Movie>, j: nat)
    requires j < |corpus|
  {
    forall i | 0 <= i < j :: corpus[i].rowLabel != corpus[j].rowLabel
  }

  /** Row `j` is an index entry under the key `q`. */
  predicate IsHit(corpus: seq<Movie>, q: string, j: int) {
    0 <= j < |corpus| && Indexed(corpus, j) && Shown(corpus[j]) == q
  }

  /** The rows from `j` on that are index entries under `q`, ascending. */
  function HitsFrom(corpus: seq<Movie>, q: string, j: nat): (hs: seq<nat>)
    requires j <= |corpus|
    ensures forall p :: p in hs <==> j <= p && IsHit(corpus, q, p)
    ensures forall k | 0 <= k < |hs| :: j <= hs[k]
    ensures forall a, b | 0 <= a < b < |hs| :: hs[a] < hs[b]
    decreases |corpus| - j
  {
    if j == |corpus| then []
    else if IsHit(corpus, q, j) then [j] + HitsFrom(corpus, q, j + 1)
    else HitsFrom(corpus, q, j + 1)
  }

  /** Title lookup in the index: the label of the only index entry under the title.
      A missing key raises, and so does a key with several entries (their
      labels form a Series, which `min` cannot compare with a number). */
  function ResolveTitle(corpus: seq<Movie>, q: string): (r: Result<nat, LookupError>)
    ensures r == Failure(TitleNotFound) <==> forall p | 0 <= p < |corpus| :: !IsHit(corpus, q, p)
    ensures r == Failure(AmbiguousTitle) <==>
      exists p, p' | 0 <= p < p' < |corpus| :: IsHit(corpus, q, p) && IsHit(corpus, q, p')
    ensures r.Success? ==>
      exists p | 0 <= p < |corpus| :: IsHit(corpus, q, p) && corpus[p].rowLabel == r.value
        && forall p' | 0 <= p' < |corpus| && IsHit(corpus, q, p') :: p' == p
  {
    var hs := HitsFrom(corpus, q, 0);
    if |hs| == 0 then
      Failure(TitleNotFound)
    else if |hs| == 1 then
      assert hs[0] in hs;
      assert forall p' | 0 <= p' < |corpus| && IsHit(corpus, q, p') :: p' == hs[0] by {
        forall p' | 0 <= p' < |corpus| && IsHit(corpus, q, p') ensures p' == hs[0] {
          assert p' in hs;
        }
      }
      Success(corpus[hs[0]].rowLabel)
    else
      assert hs[0] in hs && hs[1] in hs;
      Failure(AmbiguousTitle)
  }

  /** The smaller of the label and the last row position: a label past the end
      selects the last row. */
  function Clamp(rowLabel: nat, n: nat): (idx: nat)
    requires n >= 1
    ensures idx < n
    ensures rowLabel < n ==> idx == rowLabel
    ensures rowLabel >= n ==> idx == n - 1
  {
    if rowLabel <= n - 1 then rowLabel else n - 1
  }

  /** The similarity matrix has one row of one score per table row, for each table row. */
  predicate SimilarityMatrix(sim: seq<seq<real>>, n: nat) {
    |sim| == n && forall i | 0 <= i < |sim| :: |sim[i]| == n
  }

  /** The positions of the ranked entries, in ranked order. */
  function Positions(ranked: seq<Scored>): (ps: seq<nat>)
    ensures |ps| == |ranked|
    ensures forall k | 0 <= k < |ranked| :: ps[k] == ranked[k].pos
  {
    seq(|ranked|, k requires 0 <= k < |ranked| => ranked[k].pos)
  }

  /** The shown titles of the rows at the given positions, in that order. */
  function TitlesAt(corpus: seq<Movie>, ps: seq<nat>): (ts: seq<string>)
    requires forall k | 0 <= k < |ps| :: ps[k] < |corpus|
    ensures |ts| == |ps|
    ensures forall k | 0 <= k < |ps| :: ts[k] == Shown(corpus[ps[k]])
  {
    seq(|ps|, k requires 0 <= k < |ps| => Shown(corpus[ps[k]]))
  }

  /** Ranked entries 1 to 10, mapped to titles, then cut to five: the titles
      of ranked entries 1 .. 5, as far as the ranking reaches. */
  function Window(corpus: seq<Movie>, ranked: seq<Scored>): (ts: seq<string>)
    requires forall k | 0 <= k < |ranked| :: ranked[k].pos < |corpus|
    ensures |ranked| >= 1 ==> |ts| == Min(5, |ranked| - 1)
    ensures forall i | 1 <= i <= |ts| :: i < |ranked| && ts[i - 1] == Shown(corpus[ranked[i].pos])
  {
    var window := PySlice(ranked, 1, 11);
    var titles := TitlesAt(corpus, Positions(window));
    PySlice(titles, 0, 5)
  }

  /** The recommendation for a title: an error when the title does not resolve,
      otherwise min(5, N - 1) titles. */
  function Recommend(corpus: seq<Movie>, sim: seq<seq<real>>, q: string): (r: Result<seq<string>, LookupError>)
    requires SimilarityMatrix(sim, |corpus|)
    ensures r == Failure(TitleNotFound) <==> forall p | 0 <= p < |corpus| :: !IsHit(corpus, q, p)
    ensures r.Failure? <==> ResolveTitle(corpus, q).Failure?
    ensures r.Failure? ==> r.error == ResolveTitle(corpus, q).error
    ensures r.Success? ==> |corpus| >= 1 && |r.value| == Min(5, |corpus| - 1)
  {
    match ResolveTitle(corpus, q)
    case Failure(e) => Failure(e)
    case Success(rowLabel) =>
      var idx := Clamp(rowLabel, |corpus|);
      RankIsStablePermutation(sim[idx]);
      Success(Window(corpus, Rank(sim[idx])))
  }

  /** The titles returned are those of ranked entries 1 .. min(5, N-1) of the
      query's (clamped) similarity row, in ranked order. Entry 0 is dropped
      whatever row it is, and the returned rows are pairwise distinct. */
  lemma RecommendPicks(corpus: seq<Movie>, sim: seq<seq<real>>, q: string, rowLabel: nat)
    requires SimilarityMatrix(sim, |corpus|)
    requires ResolveTitle(corpus, q) == Success(rowLabel)
    ensures |corpus| >= 1
    ensures
      var ranked := Rank(sim[Clamp(rowLabel, |corpus|)]);
      var r := Recommend(corpus, sim, q);
      && r.Success?
      && |r.value| == Min(5, |corpus| - 1)
      && (forall i | 1 <= i <= |r.value| ::
            i < |ranked| && ranked[i].pos < |corpus| && r.value[i - 1] == Shown(corpus[ranked[i].pos]))
      && (forall i | 1 <= i <= |r.value| :: ranked[i].pos != ranked[0].pos)
      && (forall i, i' | 1 <= i < i' <= |r.value| :: ranked[i].pos != ranked[i'].pos)
  {
    var idx := Clamp(rowLabel, |corpus|);
    RankIsStablePermutation(sim[idx]);
    assert Recommend(corpus, sim, q) == Success(Window(corpus, Rank(sim[idx])));
  }

  /** When the query row scores strictly higher against itself than against any
      other row, the entry dropped is the query itself, so it is never returned. */
  lemma RecommendExcludesQuery(corpus: seq<Movie>, sim: seq<seq<real>>, q: string, rowLabel: nat)
    requires SimilarityMatrix(sim, |corpus|)
    requires ResolveTitle(corpus, q) == Success(rowLabel)
    requires |corpus| >= 1
    requires var idx := Clamp(rowLabel, |corpus|);
      forall p | 0 <= p < |corpus| && p != idx :: sim[idx][p] < sim[idx][idx]
    ensures
      var ranked := Rank(sim[Clamp(rowLabel, |corpus|)]);
      forall i | 1 <= i <= Min(5, |corpus| - 1) :: ranked[i].pos != Clamp(rowLabel, |corpus|)
  {
    var idx := Clamp(rowLabel, |corpus|);
    StrictMaximumRanksFirst(sim[idx], idx);
    RecommendPicks(corpus, sim, q, rowLabel);
  }

  /** When the query's similarity row is flat (a title with no vocabulary term
      scores 0 against every row), the ranking keeps row order: row 0 is dropped
      and the titles of rows 1 .. min(5, N-1) are returned. */
  lemma RecommendFlatRow(corpus: seq<Movie>, sim: seq<seq<real>>, q: string, rowLabel: nat)
    requires SimilarityMatrix(sim, |corpus|)
    requires ResolveTitle(corpus, q) == Success(rowLabel)
    requires |corpus| >= 1
    requires var row := sim[Clamp(rowLabel, |corpus|)];
      forall i, j | 0 <= i < j < |row| :: row[i] == row[j]
    ensures Recommend(corpus, sim, q).Success?
    ensures forall k | 0 <= k < |Recommend(corpus, sim, q).value| ::
      Recommend(corpus, sim, q).value[k] == Shown(corpus[k + 1])
  {
    var idx := Clamp(rowLabel, |corpus|);
    FlatRowKeepsRowOrder(sim[idx]);
    RecommendPicks(corpus, sim, q, rowLabel);
  }
}

=== FILE: tables.dfy ===
/**
 Tabular building blocks shared by every endpoint: nullable cells, results with
 an error, first-match lookup, exact-match row selection and the Python slice
 `s[lo:hi]` for non-negative bounds.
 */
module Tables {

  /** A nullable cell: `None` stands for a missing or non-numeric value. */
  datatype Option<+T> = None | Some(value: T) {
    /** The value, or `default` when the cell is empty (pandas `fillna`). */
    function GetOr(default: T): T {
      match this
      case Some(v) => v
      case None => default
    }
  }

  datatype Result<+R, +E> = Success(value: R) | Failure(error: E)

  function Min(a: int, b: int): (m: int)
    ensures m <= a && m <= b
    ensures m == a || m == b
  {
    if a <= b then a else b
  }

  /** Row `i` is the first row of `rows` whose key equals `k`. */
  ghost predicate IsFirst<R, K>(rows: seq<R>, key: R -> K, k: K, i: int) {
    && 0 <= i < |rows|
    && key(rows[i]) == k
    && forall j | 0 <= j < i :: key(rows[j]) != k
  }

  /** Position of the first row whose key equals `k`: the row an endpoint answers from. */
  function Find<R, K(==)>(rows: seq<R>, key: R -> K, k: K): (r: Option<nat>)
    ensures r.None? <==> forall j | 0 <= j < |rows| :: key(rows[j]) != k
    ensures r.Some? ==> IsFirst(rows, key, k, r.value)
  {
    if |rows| == 0 then None
    else if key(rows[0]) == k then Some(0)
    else
      match Find(rows[1..], key, k)
      case None => None
      case Some(i) => Some(i + 1)
  }

  /** The rows whose key equals `k`, in table order (an exact-match filter). */
  function Select<R, K(==)>(rows: seq<R>, key: R -> K, k: K): (r: seq<R>)
    ensures |r| <= |rows|
    ensures forall i | 0 <= i < |r| :: key(r[i]) == k
  {
    if |rows| == 0 then []
    else if key(rows[0]) == k then [rows[0]] + Select(rows[1..], key, k)
    else Select(rows[1..], key, k)
  }

  /** The selected rows are exactly the rows carrying the key. */
  lemma {:induction false} SelectMembers<R, K>(rows: seq<R>, key: R -> K, k: K)
    ensures forall x :: x in Select(rows, key, k) <==> x in rows && key(x) == k
  {
    if |rows| > 0 {
      SelectMembers(rows[1..], key, k);
      assert rows == [rows[0]] + rows[1..];
    }
  }

  /** Selecting from a concatenation selects from each part, in order. */
  lemma {:induction false} SelectAppend<R, K>(a: seq<R>, b: seq<R>, key: R -> K, k: K)
    ensures Select(a + b, key, k) == Select(a, key, k) + Select(b, key, k)
  {
    if |a| == 0 {
      assert a + b == b;
    } else {
      assert (a + b)[1..] == a[1..] + b;
      SelectAppend(a[1..], b, key, k);
    }
  }

  /** Selection finds nothing exactly when no row carries the key. */
  lemma {:induction false} SelectEmpty<R, K>(rows: seq<R>, key: R -> K, k: K)
    ensures Select(rows, key, k) == [] <==> forall j | 0 <= j < |rows| :: key(rows[j]) != k
  {
    if |rows| > 0 {
      SelectEmpty(rows[1..], key, k);
      assert forall j | 1 <= j < |rows| :: rows[j] == rows[1..][j - 1];
    }
  }

  /** The rows satisfying `p`, in order (a boolean mask applied to a frame). */
  function Filter<R>(rows: seq<R>, p: R -> bool): (r: seq<R>)
    ensures |r| <= |rows|
    ensures forall i | 0 <= i < |r| :: p(r[i])
  {
    if |rows| == 0 then []
    else if p(rows[0]) then [rows[0]] + Filter(rows[1..], p)
    else Filter(rows[1..], p)
  }

  /** The kept rows are exactly the rows satisfying `p`. */
  lemma {:induction false} FilterMembers<R>(rows: seq<R>, p: R -> bool)
    ensures forall x :: x in Filter(rows, p) <==> x in rows && p(x)
  {
    if |rows| > 0 {
      FilterMembers(rows[1..], p);
      assert rows == [rows[0]] + rows[1..];
    }
  }

  /** Python's `s[lo:hi]` for non-negative bounds: both bounds are cut to `|s|`
      and an inverted range is empty. */
  function PySlice<T>(s: seq<T>, lo: nat, hi: nat): (r: seq<T>)
    ensures |r| == if lo >= hi || lo >= |s| then 0 else Min(hi, |s|) - lo
    ensures forall k | 0 <= k < |r| :: r[k] == s[lo + k]
  {
    var a := if lo <= |s| then lo else |s|;
    var b := if hi <= |s| then hi else |s|;
    if a <= b then s[a..b] else []
  }
}
